=== FILE: README.md ===
# Hex colour clock: the colour helpers, in Dafny

The clock turns the time of day into a colour: the two-digit hours, minutes
and seconds are written side by side and read as a hex colour code (the
time record with fields "14", "05" and "09" becomes `#140509`). This project
models the pure helpers in `src/utils.ts` that do the conversion, with the
records of `src/types.d.ts`:

- `getHexFromTime`: `HexCodec.HexFromTime`, the three time fields concatenated.
- `getHexFormatted`: `HexCodec.HexFormatted`, a `#` in front of the code.
- `getRgbFromHex`: `HexCodec.DecodeHex` and `HexCodec.RgbFromHex`. A
  seven-character input loses its first character. Anything that is not then
  six characters long is refused. The six characters are split by
  `match(/.{1,2}/g)` (`Js.DotPairs`), and each run is read with
  `parseInt(run, 16)` (`Js.ParseInt16`). A refusal is a typed `Failure` in
  `DecodeHex`, and `RgbFromHex` turns it into the all-zero colour `Black`, as
  the source's `catch` does.
- `getRgbShaded`: `Shader.ShadeChannel`, `Shader.ShadeRgb` and
  `Shader.RgbShaded`. Each channel is scaled by `(100 + percent) / 100` and
  capped at 255 from above only.
- `getRgbFormatted`: `Formatter.RgbFormatted`, the text `"rgb( R, G, B )"`.

A JavaScript `number` is `Types.Number`: NaN, or a finite value held as an
exact `real`. The JavaScript built-ins the helpers rely on are modelled in
module `Js`, following ECMAScript within the limits listed under "Left out".
These are `parseInt` with radix 16 (leading white space, a sign, a `0x`
prefix, the longest run of hex digits), the global regular-expression match,
and the rendering of a number inside a template literal. A `char` stands for
one UTF-16 code unit that is not a surrogate. The wall clock is not read: a
`Types.Time` is an input.

Every conversion has a partner it is proved against:
- The decoder is proved against the channel formula `Channels` and against
  its inverse `HexFromRgb`, in both directions, up to letter case.
- The formatter is proved against a reader for its own output,
  `ParseRgbText`. The reader is strict: it accepts only the numerals
  JavaScript writes (no leading zero, no "-0"), so reading the text back
  fixes the text itself.
- The shader is proved against its cap (a channel whose scaled value
  exceeds 255 becomes exactly 255), its identity at 0%, its bounds, and its
  monotonicity in the percentage.

Quirks of the code the model keeps:
- Six characters that are not hex digits, such as `"zzzzzz"`, are not refused.
  `parseInt` never throws, so the decoder yields three NaN channels, not the
  all-zero colour (`Scenarios.NonHexIsNotBlack`).
- The first character of a seven-character input is dropped whether or not
  it is `#` (`Scenarios.AnyFirstOfSevenDropped`).
- A `#` in front of a five-digit code is not dropped at all; it is read as
  part of the first run (`Scenarios.HashInSixIsRead`).

## Model

| member | source | states |
|---|---|---|
| HexCodec.HexFromTime | src/utils.ts:11-13 | the code is the hours, then the minutes, then the seconds field, and its length is the sum of theirs (six for two-character fields) |
| HexCodec.HexFormatted | src/utils.ts:21 | the display form is one character longer, starts with '#', and what follows the '#' is exactly the code |
| HexCodec.DecodeHex | src/utils.ts:99-125 | input that is neither six nor seven characters long is refused as the wrong length before any parsing; only six- or seven-character input can succeed |
| HexCodec.RgbFromHex | src/utils.ts:99-125 | a successful decode is returned as is; any refusal, in particular any length other than 6 or 7, gives the all-zero colour |
| HexCodec.DecodeHexDigits | src/utils.ts:113-119 | six hex digits in either case always decode; each channel is 16 times its high digit plus its low digit, a whole number from 0 to 255 |
| HexCodec.ParsePair | src/utils.ts:117-119 | `parseInt` reads a run of two hex digits as high digit times 16 plus low digit |
| HexCodec.SixPlainCharactersDecode | src/utils.ts:113-115 | six characters with no line terminator always split into three runs, so the split check never refuses them |
| HexCodec.SevenDropsFirst | src/utils.ts:107-108 | a seven-character input decodes exactly like its last six characters, whatever its first character is |
| HexCodec.FormattedDecodesAlike | src/utils.ts:107-110 | for any six-character code, decoding its '#' display form gives the same colour as decoding the code |
| HexCodec.DecodeThenEncode | src/utils.ts:113-119 | decoding six hex digits, with or without '#', and re-encoding each channel as two lowercase hex digits gives back the input in lowercase |
| HexCodec.EncodeThenDecode | src/utils.ts:113-119 | every colour with whole channels from 0 to 255, written as six hex digits with or without '#', decodes back to itself |
| HexCodec.EncodeChannels | src/utils.ts:117-119 | the channels of six hex digits are bytes and re-encode to the digits in lowercase |
| HexCodec.TimeColour | src/index.ts:21-23 | when each time field is two decimal digits, the code is six characters; it decodes, with or without '#', to each field read as base 16 (at most 0x99) |
| Js.ParseInt16 | src/utils.ts:117-119 | `parseInt(s, 16)` is NaN or a whole number, and NaN for the empty text |
| Js.ParseInt16OfHex | src/utils.ts:117-119 | `parseInt(s, 16)` of a non-empty run of hex digits is the run's base-16 value |
| Js.DotPairs | src/utils.ts:113 | the regular-expression match yields runs of one or two characters whose concatenation is the input with its line terminators removed; with `Js.DotPairsOfPlain` and `Js.DotPairsBreak` this fixes the runs of every input |
| Js.DotPairsOfPlain | src/utils.ts:113 | text with no line terminator splits into ceil(n/2) runs, run i being characters 2i and 2i+1 (only 2i for the odd last one): each match takes two characters whenever two are left |
| Js.DotPairsBreak | src/utils.ts:113 | a line terminator is never matched and ends the run before it: the runs of a + terminator + b are the runs of a followed by the runs of b |
| Js.DotPairsOfSix | src/utils.ts:113-114 | six characters with no line terminator split into exactly the three consecutive pairs |
| Js.NumberToString | src/utils.ts:134-135 | NaN is written "NaN"; an integer of magnitude at most 2^53 is written as a numeral that the strict decimal reader reads back as exactly that integer, with nothing left over, which by `Decimal.ReadIntExact` makes it the integer's own numeral |
| Decimal.ReadIntExact | src/utils.ts:134-135 | whatever the integer reader accepts is exactly the numeral written for the value it reads (no leading zero, no "-0"), followed by the unread rest |
| Decimal.ReadIntWhole | src/utils.ts:135 | a whole text the strict reader reads as v is exactly the numeral written for v, which is how `Formatter.PlainChannelText` gets each channel's text from the contract of `Js.NumberToString` |
| Decimal.ReadIntOfString | src/utils.ts:134-135 | the reader reads a written integer back, from the front of any text that does not continue with a digit |
| Formatter.RgbFormatted | src/utils.ts:134-135 | for channels that are integers of magnitude at most 2^53, the text is "rgb( R, G, B )" with red, green and blue in that order: reading it back recovers exactly the three channels |
| Formatter.ParseRgbTextExact | src/utils.ts:134-135 | the display-text reader accepts a text only when it is exactly "rgb( R, G, B )" with each of the three integers it reads written as its own numeral |
| Formatter.FormattedTextFixed | src/utils.ts:134-135 | integer channels of magnitude at most 2^53 give exactly the text "rgb( R, G, B )" with each channel's own decimal numeral |
| Shader.ShadeChannel | src/utils.ts:146-152 | a shaded channel is never above 255; it is the scaled value when that is at most 255 and exactly 255 when the scaled value is larger; NaN stays NaN |
| Shader.ShadeRgb | src/utils.ts:146-152 | each channel is shaded on its own: NaN stays NaN, a scaled value of at most 255 is kept and a larger one becomes 255; so no channel is above 255, NaN-ness is kept per channel, and shading by 0% returns a colour with channels at most 255 unchanged |
| Shader.RgbShaded | src/utils.ts:145-155 | when the shaded channels are integers of magnitude at most 2^53 the text reads back, through the strict reader, as exactly those channels, none above 255; at 0% a colour of integer channels at most 255 reads back unchanged |
| Shader.ShadeByZero | src/utils.ts:146-152 | shading by 0% leaves unchanged every channel that is at most 255 |
| Shader.NoLowerClamp | src/utils.ts:150-152 | there is no lower clamp: below -100% a positive channel becomes negative |
| Shader.MonotoneInPercent | src/utils.ts:146-152 | for a non-negative channel, a larger percentage never gives a smaller result |
| Shader.LightenBounds | src/utils.ts:146-152 | a non-negative percentage keeps a channel from 0 to 255 between its old value and 255 |
| Shader.DarkenBounds | src/utils.ts:146-152 | a percentage from -100 to 0 keeps a channel from 0 to 255 between 0 and its old value |
| Shader.ChannelsIndependent | src/utils.ts:146-152 | each shaded channel depends only on the same channel of the input |
| Shader.ShadeGreyExample | src/utils.ts:145-155 | grey 100 lightened by 80% is "rgb( 180, 180, 180 )" |
| Shader.ShadeCappedExample | src/utils.ts:145-155 | grey 200 lightened by 80% would be 360, so it is capped to "rgb( 255, 255, 255 )" |
| Scenarios.ParseSkipsSpace | src/utils.ts:117 | `parseInt(" f", 16)` is 15: leading white space is skipped |
| Scenarios.ParseTakesSign | src/utils.ts:117 | `parseInt("-f", 16)` is -15: a sign is honoured |
| Scenarios.ParseStopsAtNonDigit | src/utils.ts:117 | `parseInt("1z", 16)` is 1: reading stops at the first non-digit |
| Scenarios.ParseRadixPrefixAlone | src/utils.ts:117 | `parseInt("0x", 16)` is NaN: the radix prefix is dropped and no digit is left |
| Scenarios.ParseNoDigits | src/utils.ts:117 | runs that do not start with a hex digit, such as "zz" and "#a", are NaN |
| Scenarios.DecodeExample | src/utils.ts:99-125 | "1a2b3c" and "#1a2b3c" both decode to red 26, green 43, blue 60 |
| Scenarios.ShorthandRefused | src/utils.ts:110-111 | the three-digit shorthand is refused as the wrong length, with or without '#', and shows as the all-zero colour |
| Scenarios.NonHexIsNotBlack | src/utils.ts:117-119 | "zzzzzz" decodes to three NaN channels, which is not the all-zero colour |
| Scenarios.HashInSixIsRead | src/utils.ts:107-108 | in "#abcde" the '#' is kept and read as part of the red run, so red is NaN |
| Scenarios.AnyFirstOfSevenDropped | src/utils.ts:107-108 | "x1a2b3c" decodes like "1a2b3c" |
| Scenarios.LineBreakShiftsRuns | src/utils.ts:113 | a line break in the code is skipped by the split, so "a\nbcde" reads as runs "a", "bc", "de" |
| Scenarios.ClockCode | src/utils.ts:11-21 | for the time record ("14", "05", "09") the display code is "#140509" |
| Scenarios.ClockChannels | src/index.ts:21-23 | "140509" decodes to red 20, green 5, blue 9 |
| Scenarios.ClockText | src/utils.ts:134-135 | the colour with channels 20, 5 and 9 is shown as "rgb( 20, 5, 9 )" |
| Scenarios.ClockAccent | src/utils.ts:145-155 | the colour with channels 20, 5 and 9, lightened by 80%, is "rgb( 36, 9, X )" where X renders the unrounded 16.2 |

## Left out

- `getTimeNow` (src/utils.ts:163-171) reads the wall clock through a foreign date library, so the time is an input. luxon's `'hh'` is the 12-hour token, so hours run 01–12. The model assumes only that the fields are two decimal digits.
- `getHslFromRgb` and `getHslFormatted` (src/utils.ts:29-91) are IEEE floating-point numerics. They use `%` on doubles, `Math.round` and `toFixed(1)`, which an exact-real model would not match.
- The `console.debug` diagnostics (src/utils.ts:77, src/utils.ts:121) are output only. The refusal they report is the `Failure` value of `HexCodec.DecodeHex`.
- `src/index.ts` is timer scheduling and page updates. Only its order of calls is used, by `HexCodec.TimeColour` and the `Scenarios.Clock*` lemmas.
- Js.NumberToString: only NaN and integers of magnitude at most 2^53 are rendered by the model. Every other value, including larger integers, whose shortest round-trip digits need not be their own (2^64 is written "18446744073709552000"), is rendered by the `other` parameter.
- Js.ParseInt16: computes exact values for numerals of any length, whereas JavaScript rounds values above 2^53. The decoder only ever passes it runs of one or two characters.
- Shader.ShadeChannel: works in exact reals. It does not model IEEE rounding, overflow to Infinity, or a NaN or infinite percentage.
- Types.Number does not distinguish negative zero from zero. `parseInt("-0", 16)` is -0 in JavaScript, but both render as "0".
- A `char` is one UTF-16 code unit that is not a surrogate. A Dafny `char` is a Unicode scalar value, so lone surrogates cannot be represented, and text with characters outside the Basic Multilingual Plane is not modelled, because JavaScript counts each such character as two in `length`.

=== FILE: codec.dfy ===
/**
 * The hex colour code helpers: a time of day read as a colour code, the
 * '#'-prefixed display form, and the decoder from a code to RGB channels.
 */
module HexCodec {
  import opened Wrappers
  import opened Types
  import Hex
  import Decimal
  import Js

  /** Why the decoder gave up; in either case the colour falls back to `Black`. */
  datatype DecodeError =
    | WrongLength     // not six characters once a seventh leading one is dropped
    | InvalidHexCode  // the text does not split into exactly three runs

  /** The hours, minutes and seconds fields side by side, with no '#'. */
  function HexFromTime(t: Time): (hex: string)
    ensures |hex| == |t.hours| + |t.mins| + |t.secs|
    ensures hex[..|t.hours|] == t.hours
    ensures hex[|t.hours|..|t.hours| + |t.mins|] == t.mins
    ensures hex[|t.hours| + |t.mins|..] == t.secs
  {
    t.hours + t.mins + t.secs
  }

  /** A field written as two decimal digits, as the clock produces them. */
  predicate IsTwoDigitField(f: string) {
    |f| == 2 && Decimal.IsDigits(f)
  }

  predicate IsTwoDigitTime(t: Time) {
    IsTwoDigitField(t.hours) && IsTwoDigitField(t.mins) && IsTwoDigitField(t.secs)
  }

  /** The display form of a code: a '#' followed by the code itself. */
  function HexFormatted(hex: string): (r: string)
    ensures |r| == |hex| + 1
    ensures r[0] == '#' && r[1..] == hex
  {
    "#" + hex
  }

  /**
   * The decoder with its failure made explicit. A seven-character input
   * loses its first character whatever it is; what remains must be six
   * characters long and split into exactly three runs of one or two
   * characters, each of which is read by `parseInt(run, 16)`.
   */
  function DecodeHex(hex: string): (r: Result<Rgb, DecodeError>)
    ensures |hex| != 6 && |hex| != 7 ==> r == Failure(WrongLength)
  {
    var code := if |hex| == 7 then hex[1..] else hex;
    if |code| != 6 then Failure(WrongLength)
    else
      var parts := Js.DotPairs(code);
      if |parts| != 3 then Failure(InvalidHexCode)
      else Success(Rgb(Js.ParseInt16(parts[0]), Js.ParseInt16(parts[1]), Js.ParseInt16(parts[2])))
  }

  /** The decoder as the display sees it: a rejected code shows as `Black`. */
  function RgbFromHex(hex: string): (rgb: Rgb)
    ensures DecodeHex(hex).Success? ==> rgb == DecodeHex(hex).value
    ensures DecodeHex(hex).Failure? ==> rgb == Black
    ensures |hex| != 6 && |hex| != 7 ==> rgb == Black
  {
    DecodeHex(hex).GetOr(Black)
  }

  /** The channels a six-digit code stands for, two digits per channel. */
  function Channels(h: string): (rgb: Rgb)
    requires |h| == 6 && Hex.IsHexString(h)
  {
    Rgb(Num(Hex.PairValue(h[0], h[1]) as real),
        Num(Hex.PairValue(h[2], h[3]) as real),
        Num(Hex.PairValue(h[4], h[5]) as real))
  }

  /** A channel holding a whole number from 0 to 255. */
  predicate IsByte(n: Number) {
    n.Num? && n.value == n.value.Floor as real && 0 <= n.value.Floor < 256
  }

  predicate IsByteRgb(rgb: Rgb) {
    IsByte(rgb.red) && IsByte(rgb.green) && IsByte(rgb.blue)
  }

  /** A byte colour as its six lowercase hex digits (the decoder's inverse). */
  function HexFromRgb(rgb: Rgb): (hex: string)
    requires IsByteRgb(rgb)
    ensures |hex| == 6 && Hex.IsHexString(hex) && Hex.Lower(hex) == hex
  {
    var hex := Hex.Encode2(rgb.red.value.Floor) + Hex.Encode2(rgb.green.value.Floor)
               + Hex.Encode2(rgb.blue.value.Floor);
    assert Hex.Lower(hex) == hex;
    hex
  }

  /** A run of two hex digits reads as high digit times 16 plus low digit. */
  lemma ParsePair(run: string)
    requires |run| == 2 && Hex.IsHexString(run)
    ensures Js.ParseInt16(run) == Num(Hex.PairValue(run[0], run[1]) as real)
  {
    Js.ParseInt16OfHex(run);
    Hex.ValueOfPair(run);
  }

  /**
   * Six hex digits, in either case, always decode, and each channel is the
   * value of its two-digit run, a whole number from 0 to 255.
   */
  lemma DecodeHexDigits(h: string)
    requires |h| == 6 && Hex.IsHexString(h)
    ensures DecodeHex(h) == Success(Channels(h))
    ensures RgbFromHex(h) == Channels(h) && IsByteRgb(RgbFromHex(h))
  {
    Js.HexIsPlain(h);
    Js.DotPairsOfSix(h);
    var r, g, b := h[..2], h[2..4], h[4..];
    ParsePair(r);
    ParsePair(g);
    ParsePair(b);
    assert r[0] == h[0] && r[1] == h[1];
    assert g[0] == h[2] && g[1] == h[3];
    assert b[0] == h[4] && b[1] == h[5];
  }

  /** Six characters none of which ends a line never fail to split. */
  lemma SixPlainCharactersDecode(h: string)
    requires |h| == 6
    requires forall i :: 0 <= i < 6 ==> !Js.IsLineTerminator(h[i])
    ensures DecodeHex(h).Success?
  {
    Js.DotPairsOfSix(h);
  }

  /** A seven-character input decodes as its last six characters. */
  lemma SevenDropsFirst(hex: string)
    requires |hex| == 7
    ensures DecodeHex(hex) == DecodeHex(hex[1..])
    ensures RgbFromHex(hex) == RgbFromHex(hex[1..])
  {
  }

  /** The display form of a six-character code decodes like the code itself. */
  lemma FormattedDecodesAlike(h: string)
    requires |h| == 6
    ensures RgbFromHex(HexFormatted(h)) == RgbFromHex(h)
  {
    SevenDropsFirst(HexFormatted(h));
  }

  /** Decoding six hex digits and encoding again gives the digits in lowercase. */
  lemma DecodeThenEncode(h: string)
    requires |h| == 6 && Hex.IsHexString(h)
    ensures IsByteRgb(RgbFromHex(h))
    ensures HexFromRgb(RgbFromHex(h)) == Hex.Lower(h)
    ensures HexFromRgb(RgbFromHex(HexFormatted(h))) == Hex.Lower(h)
  {
    DecodeHexDigits(h);
    FormattedDecodesAlike(h);
    EncodeChannels(h);
  }

  /** The reference channels of six hex digits re-encode to the digits in lowercase. */
  lemma EncodeChannels(h: string)
    requires |h| == 6 && Hex.IsHexString(h)
    ensures IsByteRgb(Channels(h))
    ensures HexFromRgb(Channels(h)) == Hex.Lower(h)
  {
    var c := Channels(h);
    var r, g, b := Hex.PairValue(h[0], h[1]), Hex.PairValue(h[2], h[3]), Hex.PairValue(h[4], h[5]);
    assert c.red.value.Floor == r && c.green.value.Floor == g && c.blue.value.Floor == b;
    Hex.Encode2OfPair(h[0], h[1]);
    Hex.Encode2OfPair(h[2], h[3]);
    Hex.Encode2OfPair(h[4], h[5]);
    var lr, lg, lb := Hex.Lower([h[0], h[1]]), Hex.Lower([h[2], h[3]]), Hex.Lower([h[4], h[5]]);
    assert HexFromRgb(c) == lr + lg + lb;
    assert Hex.Lower(h) == lr + lg + lb;
  }

  /** Encoding a byte colour and decoding it, with or without '#', gives it back. */
  lemma EncodeThenDecode(rgb: Rgb)
    requires IsByteRgb(rgb)
    ensures RgbFromHex(HexFromRgb(rgb)) == rgb
    ensures RgbFromHex(HexFormatted(HexFromRgb(rgb))) == rgb
  {
    var h := HexFromRgb(rgb);
    DecodeHexDigits(h);
    FormattedDecodesAlike(h);
    ChannelsOfEncoding(rgb);
  }

  /** The channel formula undoes the encoding of a byte colour. */
  lemma ChannelsOfEncoding(rgb: Rgb)
    requires IsByteRgb(rgb)
    ensures Channels(HexFromRgb(rgb)) == rgb
  {
    var h := HexFromRgb(rgb);
    assert h[..2] == Hex.Encode2(rgb.red.value.Floor);
    assert h[2..4] == Hex.Encode2(rgb.green.value.Floor);
    assert h[4..] == Hex.Encode2(rgb.blue.value.Floor);
  }

  /** A two-digit decimal field read as base 16, as the decoder reads it. */
  function FieldAsHex(f: string): (v: nat)
    requires IsTwoDigitField(f)
    ensures v <= 0x99
  {
    16 * Decimal.DigitValue(f[0]) + Decimal.DigitValue(f[1])
  }

  /** A two-digit decimal field is also a two-digit hex run, worth its base-16 reading. */
  lemma DecimalFieldIsHex(f: string)
    requires IsTwoDigitField(f)
    ensures Hex.IsHexDigit(f[0]) && Hex.IsHexDigit(f[1])
    ensures Hex.PairValue(f[0], f[1]) == FieldAsHex(f)
  {
    assert Decimal.IsDigit(f[0]) && Decimal.IsDigit(f[1]);
  }

  /**
   * The clock's colour: with every field two decimal digits, the code
   * decodes (with or without '#') to the fields read as base 16, so no
   * channel exceeds 0x99.
   */
  lemma TimeColour(t: Time)
    requires IsTwoDigitTime(t)
    ensures |HexFromTime(t)| == 6
    ensures RgbFromHex(HexFromTime(t)) == Rgb(Num(FieldAsHex(t.hours) as real),
                                              Num(FieldAsHex(t.mins) as real),
                                              Num(FieldAsHex(t.secs) as real))
    ensures RgbFromHex(HexFormatted(HexFromTime(t))) == RgbFromHex(HexFromTime(t))
  {
    var h := HexFromTime(t);
    DecimalFieldIsHex(t.hours);
    DecimalFieldIsHex(t.mins);
    DecimalFieldIsHex(t.secs);
    assert h[0] == t.hours[0] && h[1] == t.hours[1];
    assert h[2] == t.mins[0] && h[3] == t.mins[1];
    assert h[4] == t.secs[0] && h[5] == t.secs[1];
    assert Hex.IsHexString(h) by {
      forall i | 0 <= i < 6
        ensures Hex.IsHexDigit(h[i])
      {
        assert i == 0 || i == 1 || i == 2 || i == 3 || i == 4 || i == 5;
      }
    }
    DecodeHexDigits(h);
    FormattedDecodesAlike(h);
  }
}

=== FILE: decimal.dfy ===
/**
 * Decimal integer text: the rendering JavaScript uses for an integral
 * `number` of moderate size, and a reader that inverts it.
 */
module Decimal {
  import opened Wrappers

  predicate IsDigit(c: char) {
    '0' <= c <= '9'
  }

  predicate IsDigits(s: string) {
    forall i :: 0 <= i < |s| ==> IsDigit(s[i])
  }

  function DigitValue(c: char): (v: nat)
    requires IsDigit(c)
    ensures v < 10
  {
    c as int - '0' as int
  }

  function DigitChar(v: nat): (c: char)
    requires v < 10
    ensures IsDigit(c) && DigitValue(c) == v
  {
    ('0' as int + v) as char
  }

  /** The value of a decimal numeral, most significant digit first; 0 for "". */
  function Value(s: string): nat
    requires IsDigits(s)
  {
    if |s| == 0 then 0
    else 10 * Value(s[..|s| - 1]) + DigitValue(s[|s| - 1])
  }

  /** Shortest decimal numeral of `n`: digits only, no leading zero. */
  function NatToString(n: nat): (s: string)
    ensures |s| >= 1 && IsDigits(s)
    ensures |s| > 1 ==> s[0] != '0'
  {
    if n < 10 then [DigitChar(n)]
    else NatToString(n / 10) + [DigitChar(n % 10)]
  }

  /** Decimal numeral of `n`, with a leading '-' when negative. */
  function IntToString(n: int): (s: string)
    ensures |s| >= 1
    ensures n < 0 <==> s[0] == '-'
  {
    if n < 0 then "-" + NatToString(-n) else NatToString(n)
  }

  /** The longest prefix of `s` made of decimal digits. */
  function DigitPrefix(s: string): (d: string)
    ensures d <= s && IsDigits(d)
    ensures |d| == |s| || !IsDigit(s[|d|])
  {
    if |s| == 0 || !IsDigit(s[0]) then []
    else [s[0]] + DigitPrefix(s[1..])
  }

  /** A numeral as `NatToString` writes it: digits, no leading zero unless it is "0". */
  predicate IsCanonical(d: string) {
    |d| >= 1 && IsDigits(d) && (|d| > 1 ==> d[0] != '0')
  }

  /**
   * Reads a natural number from the front of `t`, returning it and the text
   * after it. Only numerals `NatToString` writes are accepted: None when no
   * digit follows or when the digits start with a redundant '0'.
   */
  function ReadNat(t: string): (r: Option<(nat, string)>)
    ensures r.Some? ==> t == NatToString(r.value.0) + r.value.1
  {
    var d := DigitPrefix(t);
    if |d| == 0 || (d[0] == '0' && |d| > 1) then None
    else
      NatToStringOfValue(d);
      assert t == d + t[|d|..];
      Some((Value(d), t[|d|..]))
  }

  /**
   * Reads an optionally negative decimal integer from the front of `s`,
   * returning it and the text after it. Only the numerals `IntToString`
   * writes are accepted, so "-0" is refused.
   */
  function ReadInt(s: string): Option<(int, string)> {
    if |s| > 0 && s[0] == '-' then
      var m :- ReadNat(s[1..]);
      if m.0 == 0 then None else Some((0 - m.0, m.1))
    else
      var m :- ReadNat(s);
      Some((m.0 as int, m.1))
  }

  /** Reading back a rendered natural number gives the number. */
  lemma {:induction false} ValueOfNatToString(n: nat)
    ensures Value(NatToString(n)) == n
  {
    if n >= 10 {
      var s := NatToString(n);
      assert s[..|s| - 1] == NatToString(n / 10);
      ValueOfNatToString(n / 10);
    }
  }

  /** The digit prefix stops exactly where the digits stop. */
  lemma {:induction false} DigitPrefixOfDigitsThen(d: string, rest: string)
    requires IsDigits(d)
    requires |rest| == 0 || !IsDigit(rest[0])
    ensures DigitPrefix(d + rest) == d
  {
    if |d| > 0 {
      assert (d + rest)[1..] == d[1..] + rest;
      DigitPrefixOfDigitsThen(d[1..], rest);
    } else {
      assert d + rest == rest;
    }
  }

  /**
   * Round trip: rendering an integer and reading it back from the front of
   * any text that does not continue with a digit recovers the integer and
   * the remaining text.
   */
  lemma ReadIntOfString(n: int, rest: string)
    requires |rest| == 0 || !IsDigit(rest[0])
    ensures ReadInt(IntToString(n) + rest) == Some((n, rest))
  {
    if n < 0 {
      ReadNegative(-n, rest);
    } else {
      ReadNatural(n, rest);
    }
  }

  lemma ReadNatural(m: nat, rest: string)
    requires |rest| == 0 || !IsDigit(rest[0])
    ensures ReadNat(NatToString(m) + rest) == Some((m, rest))
    ensures ReadInt(NatToString(m) + rest) == Some((m, rest))
  {
    var digits := NatToString(m);
    var s := digits + rest;
    DigitPrefixOfDigitsThen(digits, rest);
    ValueOfNatToString(m);
    assert s[0] == digits[0] && IsDigit(digits[0]);
    assert s[|digits|..] == rest;
  }

  lemma ReadNegative(m: nat, rest: string)
    requires m > 0
    requires |rest| == 0 || !IsDigit(rest[0])
    ensures ReadInt("-" + NatToString(m) + rest) == Some((-(m as int), rest))
  {
    var t := NatToString(m) + rest;
    var s := "-" + NatToString(m) + rest;
    assert s == "-" + t;
    assert s[0] == '-' && s[1..] == t;
    ReadNatural(m, rest);
  }

  /** Rendering the value of a canonical numeral gives the numeral back. */
  lemma {:induction false} NatToStringOfValue(d: string)
    requires IsCanonical(d)
    ensures NatToString(Value(d)) == d
  {
    var c := d[|d| - 1];
    if |d| == 1 {
      assert DigitChar(DigitValue(c)) == c;
    } else {
      var p := d[..|d| - 1];
      assert p[0] == d[0];
      PositiveValue(p);
      NatToStringOfValue(p);
      var n := Value(d);
      assert n / 10 == Value(p) && n % 10 == DigitValue(c);
      assert DigitChar(DigitValue(c)) == c;
      assert d == p + [c];
    }
  }

  /** A numeral with no leading zero that is not "0" stands for a positive number. */
  lemma {:induction false} PositiveValue(d: string)
    requires IsCanonical(d) && d[0] != '0'
    ensures Value(d) >= 1
  {
    if |d| > 1 {
      var p := d[..|d| - 1];
      assert p[0] == d[0];
      PositiveValue(p);
    } else {
      assert DigitValue(d[0]) != 0;
    }
  }

  /**
   * The reader is strict: whatever it accepts is exactly the numeral
   * `IntToString` writes for the value read, followed by the rest.
   */
  lemma ReadIntExact(s: string)
    ensures ReadInt(s).Some? ==> s == IntToString(ReadInt(s).value.0) + ReadInt(s).value.1
  {
    if ReadInt(s).Some? && |s| > 0 && s[0] == '-' {
      var m := ReadNat(s[1..]).value;
      assert s == "-" + s[1..];
      assert IntToString(0 - m.0) == "-" + NatToString(m.0);
    }
  }

  /** In particular a whole text read as `v` is `v`'s own numeral. */
  lemma ReadIntWhole(s: string, v: int)
    requires ReadInt(s) == Some((v, []))
    ensures s == IntToString(v)
  {
    ReadIntExact(s);
  }
}

=== FILE: formatter.dfy ===
/**
 * The RGB display string "rgb( R, G, B )", and a reader for it that
 * recovers whole-number channels.
 */
module Formatter {
  import opened Wrappers
  import opened Types
  import Decimal
  import Js

  /**
   * The channels interpolated into "rgb( R, G, B )" as they are, with no
   * rounding or clamping; `other` renders the values JavaScript would not
   * write as plain integers.
   */
  function RgbFormatted(rgb: Rgb, other: real -> string): (s: string)
    ensures IsPlainRgb(rgb) ==>
              ParseRgbText(s) == Some((rgb.red.value.Floor, rgb.green.value.Floor, rgb.blue.value.Floor))
  {
    var text := "rgb( " + Js.NumberToString(rgb.red, other) + ", " + Js.NumberToString(rgb.green, other)
                + ", " + Js.NumberToString(rgb.blue, other) + " )";
    if IsPlainRgb(rgb) then
      var r, g, b := rgb.red.value.Floor, rgb.green.value.Floor, rgb.blue.value.Floor;
      PlainChannelText(rgb.red.value, other);
      PlainChannelText(rgb.green.value, other);
      PlainChannelText(rgb.blue.value, other);
      Nest(Decimal.IntToString(r), Decimal.IntToString(g), Decimal.IntToString(b));
      ParseLayout(r, g, b);
      text
    else
      text
  }

  /** The text after `lit`, when `s` starts with `lit`. */
  function Expect(lit: string, s: string): (r: Option<string>)
    ensures r.Some? <==> lit <= s
    ensures r.Some? ==> s == lit + r.value
  {
    if lit <= s then Some(s[|lit|..]) else None
  }

  /** Reads "rgb( R, G, B )" with R, G and B decimal integers, and nothing after it. */
  function ParseRgbText(s: string): Option<(int, int, int)> {
    var s1 :- Expect("rgb( ", s);
    var red :- Decimal.ReadInt(s1);
    var s2 :- Expect(", ", red.1);
    var green :- Decimal.ReadInt(s2);
    var s3 :- Expect(", ", green.1);
    var blue :- Decimal.ReadInt(s3);
    var rest :- Expect(" )", blue.1);
    if |rest| == 0 then Some((red.0, green.0, blue.0)) else None
  }

  /** A colour whose every channel JavaScript writes as its exact decimal numeral. */
  predicate IsPlainRgb(rgb: Rgb) {
    && rgb.red.Num? && Js.IsPlainInteger(rgb.red.value)
    && rgb.green.Num? && Js.IsPlainInteger(rgb.green.value)
    && rgb.blue.Num? && Js.IsPlainInteger(rgb.blue.value)
  }

  function IntChannels(r: int, g: int, b: int): Rgb {
    Rgb(Num(r as real), Num(g as real), Num(b as real))
  }

  /** The text of three integer channels, as one right-nested concatenation. */
  function Layout(r: int, g: int, b: int): string {
    "rgb( " + (Decimal.IntToString(r) + (", " + (Decimal.IntToString(g) + (", " + (Decimal.IntToString(b) + " )")))))
  }

  /** A plain integer channel is written as its decimal numeral. */
  lemma PlainChannelText(v: real, other: real -> string)
    requires Js.IsPlainInteger(v)
    ensures Js.NumberToString(Num(v), other) == Decimal.IntToString(v.Floor)
  {
    Decimal.ReadIntWhole(Js.NumberToString(Num(v), other), v.Floor);
  }

  /** Regrouping the concatenation of the display text. */
  lemma Nest(tr: string, tg: string, tb: string)
    ensures "rgb( " + tr + ", " + tg + ", " + tb + " )"
            == "rgb( " + (tr + (", " + (tg + (", " + (tb + " )")))))
  {
  }

  lemma ParseLayout(r: int, g: int, b: int)
    ensures ParseRgbText(Layout(r, g, b)) == Some((r, g, b))
  {
    var tr, tg, tb := Decimal.IntToString(r), Decimal.IntToString(g), Decimal.IntToString(b);
    var t3 := tb + " )";
    var t2 := tg + (", " + t3);
    var t1 := tr + (", " + t2);
    assert Expect("rgb( ", "rgb( " + t1) == Some(t1);
    Decimal.ReadIntOfString(r, ", " + t2);
    assert Expect(", ", ", " + t2) == Some(t2);
    Decimal.ReadIntOfString(g, ", " + t3);
    assert Expect(", ", ", " + t3) == Some(t3);
    Decimal.ReadIntOfString(b, " )");
    assert Expect(" )", " )") == Some([]);
  }

  /**
   * The reader is strict: a text it accepts is exactly the display text of
   * the three integers it reads, so no other spelling of them gets through.
   */
  lemma ParseRgbTextExact(s: string)
    requires ParseRgbText(s).Some?
    ensures s == Layout(ParseRgbText(s).value.0, ParseRgbText(s).value.1, ParseRgbText(s).value.2)
  {
    var s1 := Expect("rgb( ", s).value;
    var red := Decimal.ReadInt(s1).value;
    var s2 := Expect(", ", red.1).value;
    var green := Decimal.ReadInt(s2).value;
    var s3 := Expect(", ", green.1).value;
    var blue := Decimal.ReadInt(s3).value;
    var rest := Expect(" )", blue.1).value;
    assert ParseRgbText(s) == Some((red.0, green.0, blue.0)) && rest == [];
    Decimal.ReadIntExact(s1);
    Decimal.ReadIntExact(s2);
    Decimal.ReadIntExact(s3);
    assert blue.1 == " )";
  }

  /**
   * Together with the reader's strictness, the contract of `RgbFormatted`
   * fixes its text: integer channels are written exactly as their numerals.
   */
  lemma FormattedTextFixed(rgb: Rgb, other: real -> string)
    requires IsPlainRgb(rgb)
    ensures RgbFormatted(rgb, other) == Layout(rgb.red.value.Floor, rgb.green.value.Floor, rgb.blue.value.Floor)
  {
    ParseRgbTextExact(RgbFormatted(rgb, other));
  }
}

=== FILE: hex.dfy ===
/** Hexadecimal digits: classification, values, lowercase encoding. */
module Hex {

  predicate IsHexDigit(c: char) {
    '0' <= c <= '9' || 'a' <= c <= 'f' || 'A' <= c <= 'F'
  }

  predicate IsHexString(s: string) {
    forall i :: 0 <= i < |s| ==> IsHexDigit(s[i])
  }

  /** The value 0..15 of one hex digit, either case. */
  function DigitValue(c: char): (v: nat)
    requires IsHexDigit(c)
    ensures v < 16
    ensures '0' <= c <= '9' ==> v < 10
    ensures !('0' <= c <= '9') ==> 10 <= v
  {
    if '0' <= c <= '9' then c as int - '0' as int
    else if 'a' <= c <= 'f' then c as int - 'a' as int + 10
    else c as int - 'A' as int + 10
  }

  /** The lowercase hex digit for a value below 16. */
  function DigitChar(v: nat): (c: char)
    requires v < 16
    ensures IsHexDigit(c) && DigitValue(c) == v
    ensures !('A' <= c <= 'Z')
  {
    if v < 10 then ('0' as int + v) as char else ('a' as int + v - 10) as char
  }

  /** ASCII lowercasing of one character; everything else is left alone. */
  function LowerChar(c: char): char {
    if 'A' <= c <= 'Z' then (c as int + 32) as char else c
  }

  function Lower(s: string): (r: string)
    ensures |r| == |s|
    ensures forall i :: 0 <= i < |s| ==> r[i] == LowerChar(s[i])
  {
    seq(|s|, i requires 0 <= i < |s| => LowerChar(s[i]))
  }

  /** A hex digit is determined, up to case, by its value. */
  lemma DigitCharOfValue(c: char)
    requires IsHexDigit(c)
    ensures DigitChar(DigitValue(c)) == LowerChar(c)
  {
  }

  /** The value of a hex numeral, most significant digit first; 0 for "". */
  function Value(s: string): nat
    requires IsHexString(s)
  {
    if |s| == 0 then 0
    else 16 * Value(s[..|s| - 1]) + DigitValue(s[|s| - 1])
  }

  /** The value of a two-digit run: high digit times 16 plus low digit. */
  function PairValue(hi: char, lo: char): (v: nat)
    requires IsHexDigit(hi) && IsHexDigit(lo)
    ensures v < 256
  {
    16 * DigitValue(hi) + DigitValue(lo)
  }

  /** A two-digit numeral's value is its pair value. */
  lemma ValueOfPair(s: string)
    requires |s| == 2 && IsHexString(s)
    ensures Value(s) == PairValue(s[0], s[1])
  {
    assert s[..1][..0] == [];
    assert Value(s[..1]) == DigitValue(s[0]);
  }

  /** A byte as two lowercase hex digits. */
  function Encode2(v: nat): (s: string)
    requires v < 256
    ensures |s| == 2 && IsHexString(s)
    ensures PairValue(s[0], s[1]) == v
    ensures Lower(s) == s
  {
    [DigitChar(v / 16), DigitChar(v % 16)]
  }

  /** Re-encoding a decoded two-digit run gives the run back in lowercase. */
  lemma Encode2OfPair(hi: char, lo: char)
    requires IsHexDigit(hi) && IsHexDigit(lo)
    ensures Encode2(PairValue(hi, lo)) == Lower([hi, lo])
  {
    var v := PairValue(hi, lo);
    assert v / 16 == DigitValue(hi) && v % 16 == DigitValue(lo);
    DigitCharOfValue(hi);
    DigitCharOfValue(lo);
  }
}

=== FILE: js.dfy ===
/**
 * The JavaScript built-ins the colour helpers lean on, after ECMAScript:
 * `parseInt(s, 16)`, `String.prototype.match(/.{1,2}/g)` and the
 * rendering of a `number` inside a template literal. A `char` stands for one
 * UTF-16 code unit that is not a surrogate.
 */
module Js {
  import opened Types
  import Hex
  import Decimal
  import opened Wrappers

  /** LineTerminator: LF, CR, LINE SEPARATOR, PARAGRAPH SEPARATOR. */
  predicate IsLineTerminator(c: char) {
    c == '\n' || c == '\r' || c == '\U{2028}' || c == '\U{2029}'
  }

  /** WhiteSpace: TAB, VT, FF, ZWNBSP and every space separator (category Zs). */
  predicate IsWhiteSpace(c: char) {
    var k := c as int;
    k == 0x9 || k == 0xB || k == 0xC || k == 0xFEFF
    || k == 0x20 || k == 0xA0 || k == 0x1680 || 0x2000 <= k <= 0x200A
    || k == 0x202F || k == 0x205F || k == 0x3000
  }

  /** `s` with its leading white space and line terminators removed. */
  function TrimStart(s: string): (r: string)
    ensures |r| <= |s| && r == s[|s| - |r|..]
    ensures forall i :: 0 <= i < |s| - |r| ==> IsWhiteSpace(s[i]) || IsLineTerminator(s[i])
    ensures |r| == 0 || !(IsWhiteSpace(r[0]) || IsLineTerminator(r[0]))
  {
    if |s| > 0 && (IsWhiteSpace(s[0]) || IsLineTerminator(s[0])) then TrimStart(s[1..]) else s
  }

  /** The longest prefix of `s` made of hex digits. */
  function HexPrefix(s: string): (d: string)
    ensures d <= s && Hex.IsHexString(d)
    ensures |d| == |s| || !Hex.IsHexDigit(s[|d|])
  {
    if |s| == 0 || !Hex.IsHexDigit(s[0]) then []
    else [s[0]] + HexPrefix(s[1..])
  }

  /** Drops one leading '+' or '-'. */
  function SkipSign(t: string): (r: string)
  {
    if |t| > 0 && (t[0] == '-' || t[0] == '+') then t[1..] else t
  }

  /** Drops a leading "0x" or "0X". */
  function SkipRadixPrefix(u: string): (r: string)
  {
    if |u| >= 2 && u[0] == '0' && (u[1] == 'x' || u[1] == 'X') then u[2..] else u
  }

  /**
   * `parseInt(s, 16)`: skip leading white space, take an optional sign, drop
   * a "0x"/"0X" prefix, then read the longest run of hex digits; NaN when
   * that run is empty. Anything after the run is ignored.
   */
  function ParseInt16(s: string): (n: Number)
    ensures n.Num? ==> n.value == n.value.Floor as real
    ensures |s| == 0 ==> n == NaN
  {
    var t := TrimStart(s);
    var digits := HexPrefix(SkipRadixPrefix(SkipSign(t)));
    if |digits| == 0 then NaN
    else
      var v: int := Hex.Value(digits);
      Num((if |t| > 0 && t[0] == '-' then -v else v) as real)
  }

  /** A non-empty run of hex digits parses to its value. */
  lemma ParseInt16OfHex(s: string)
    requires |s| > 0 && Hex.IsHexString(s)
    ensures ParseInt16(s) == Num(Hex.Value(s) as real)
  {
    TrimStartOfHex(s);
    NoPrefixBeforeHex(s);
  }

  lemma TrimStartOfHex(s: string)
    requires |s| > 0 && Hex.IsHexDigit(s[0])
    ensures TrimStart(s) == s
  {
    var c := s[0];
    assert !IsWhiteSpace(c) && !IsLineTerminator(c);
  }

  /** Before a run of hex digits there is no space, sign or radix prefix to skip. */
  lemma NoPrefixBeforeHex(s: string)
    requires |s| > 0 && Hex.IsHexString(s)
    ensures s[0] != '-'
    ensures HexPrefix(SkipRadixPrefix(SkipSign(s))) == s
  {
    var c := s[0];
    assert Hex.IsHexDigit(c);
    assert c != '-' && c != '+';
    assert SkipSign(s) == s;
    if |s| >= 2 {
      var d := s[1];
      assert Hex.IsHexDigit(d);
      assert d != 'x' && d != 'X';
    }
    assert SkipRadixPrefix(s) == s;
    HexPrefixOfHex(s);
  }

  lemma {:induction false} HexPrefixOfHex(s: string)
    requires Hex.IsHexString(s)
    ensures HexPrefix(s) == s
  {
    if |s| > 0 {
      HexPrefixOfHex(s[1..]);
      assert [s[0]] + s[1..] == s;
    }
  }

  /** Hex digits never end a line. */
  lemma HexIsPlain(s: string)
    requires Hex.IsHexString(s)
    ensures forall i :: 0 <= i < |s| ==> !IsLineTerminator(s[i])
  {
    forall i | 0 <= i < |s|
      ensures !IsLineTerminator(s[i])
    {
      assert Hex.IsHexDigit(s[i]);
    }
  }

  /** Text with every line terminator removed. */
  function DropLineTerminators(s: string): (r: string)
    ensures |r| <= |s|
    ensures forall i :: 0 <= i < |r| ==> !IsLineTerminator(r[i])
  {
    if |s| == 0 then []
    else if IsLineTerminator(s[0]) then DropLineTerminators(s[1..])
    else [s[0]] + DropLineTerminators(s[1..])
  }

  function Concat(parts: seq<string>): string {
    if |parts| == 0 then [] else parts[0] + Concat(parts[1..])
  }

  /**
   * `s.match(/.{1,2}/g)`, with `null` (no match) as the empty list: `.`
   * matches any code unit but a line terminator, each match is as long as
   * possible, and the scan resumes after it.
   */
  function DotPairs(s: string): (parts: seq<string>)
    ensures forall i :: 0 <= i < |parts| ==> 1 <= |parts[i]| <= 2
    ensures Concat(parts) == DropLineTerminators(s)
  {
    if |s| == 0 then []
    else if IsLineTerminator(s[0]) then DotPairs(s[1..])
    else if |s| >= 2 && !IsLineTerminator(s[1]) then
      var rest := DotPairs(s[2..]);
      assert s[1..][1..] == s[2..];
      [s[..2]] + rest
    else [s[..1]] + DotPairs(s[1..])
  }

  /** Text of six code units none of which ends a line splits into three pairs. */
  lemma DotPairsOfSix(s: string)
    requires |s| == 6
    requires forall i :: 0 <= i < 6 ==> !IsLineTerminator(s[i])
    ensures DotPairs(s) == [s[..2], s[2..4], s[4..]]
  {
    var s2, s4 := s[2..], s[4..];
    assert s2[..2] == s[2..4] && s2[2..] == s4;
    assert s4[..2] == s4 && s4[2..] == [];
    assert DotPairs(s4) == [s4];
    assert DotPairs(s2) == [s[2..4], s4];
  }

  /** The `i`th run of text with no line terminator: two code units, or the odd last one. */
  function PairRun(s: string, i: nat): (run: string)
    requires 2 * i < |s|
    ensures 1 <= |run| <= 2
  {
    s[2 * i..if 2 * i + 2 <= |s| then 2 * i + 2 else |s|]
  }

  lemma PairRunShift(s: string, i: nat)
    requires 1 <= i && 2 * i < |s|
    ensures PairRun(s, i) == PairRun(s[2..], i - 1)
  {
  }

  /** Two code units that are not line terminators make the first run. */
  lemma DotPairsStep(s: string)
    requires |s| >= 2 && !IsLineTerminator(s[0]) && !IsLineTerminator(s[1])
    ensures DotPairs(s) == [s[..2]] + DotPairs(s[2..])
  {
  }

  /**
   * Text with no line terminator splits into consecutive pairs from the
   * front, the last run a single character when the length is odd.
   */
  lemma {:induction false} DotPairsOfPlain(s: string)
    requires forall i :: 0 <= i < |s| ==> !IsLineTerminator(s[i])
    ensures |DotPairs(s)| == (|s| + 1) / 2
    ensures forall i :: 0 <= i < |DotPairs(s)| ==> 2 * i < |s| && DotPairs(s)[i] == PairRun(s, i)
    decreases |s|
  {
    if |s| == 1 {
      assert DotPairs(s) == [s[..1]] + DotPairs(s[1..]);
    } else if |s| >= 2 {
      var t := s[2..];
      DotPairsOfPlain(t);
      DotPairsStep(s);
      var p, q := DotPairs(s), DotPairs(t);
      forall i | 1 <= i < |p|
        ensures 2 * i < |s| && p[i] == PairRun(s, i)
      {
        assert p[i] == q[i - 1];
        PairRunShift(s, i);
      }
    }
  }

  /** A line terminator ends the run before it: the text on each side splits on its own. */
  lemma {:induction false} DotPairsBreak(a: string, c: char, b: string)
    requires IsLineTerminator(c)
    ensures DotPairs(a + [c] + b) == DotPairs(a) + DotPairs(b)
    decreases |a|
  {
    var s := a + [c] + b;
    if |a| == 0 {
      assert s[1..] == b;
    } else if IsLineTerminator(a[0]) {
      assert s[1..] == a[1..] + [c] + b;
      DotPairsBreak(a[1..], c, b);
    } else if |a| == 1 {
      BreakAfterLast(a, c, b);
    } else if !IsLineTerminator(a[1]) {
      assert s[..2] == a[..2] && s[2..] == a[2..] + [c] + b;
      DotPairsBreak(a[2..], c, b);
    } else {
      assert s[..1] == a[..1] && s[1..] == a[1..] + [c] + b;
      DotPairsBreak(a[1..], c, b);
    }
  }

  /** A single code unit before a line break is a run of its own. */
  lemma BreakAfterLast(a: string, c: char, b: string)
    requires IsLineTerminator(c) && |a| == 1 && !IsLineTerminator(a[0])
    ensures DotPairs(a + [c] + b) == [a] + DotPairs(b)
    ensures DotPairs(a) == [a]
  {
    var s := a + [c] + b;
    assert s[1] == c && s[..1] == a && s[1..] == [c] + b && ([c] + b)[1..] == b;
    assert a[..1] == a && a[1..] == [];
  }

  /**
   * 2^53: every integer of at most this magnitude is a double that JavaScript
   * writes digit for digit; larger ones are written with their shortest
   * round-trip digits padded with zeros, which need not be their own.
   */
  const PlainIntegerLimit: int := 9_007_199_254_740_992

  /** An integer JavaScript writes as its exact decimal numeral. */
  predicate IsPlainInteger(v: real) {
    v == v.Floor as real && -PlainIntegerLimit <= v.Floor <= PlainIntegerLimit
  }

  /**
   * The text a `number` becomes inside a template literal. NaN is "NaN" and
   * an integer of magnitude at most 2^53 is its decimal numeral; every other
   * value is rendered by `other`, which stands for the shortest round-trip
   * decimal form of the IEEE double.
   */
  function NumberToString(n: Number, other: real -> string): (s: string)
    ensures n.Num? && IsPlainInteger(n.value) ==> Decimal.ReadInt(s) == Some((n.value.Floor, []))
    ensures n == NaN ==> s == "NaN"
  {
    match n
    case NaN => "NaN"
    case Num(v) =>
      if IsPlainInteger(v) then
        var text := Decimal.IntToString(v.Floor);
        Decimal.ReadIntOfString(v.Floor, []);
        assert text + [] == text;
        text
      else other(v)
  }
}

=== FILE: scenarios.dfy ===
/** Worked inputs for the decoder and the clock's pipeline, including its quirks. */
module Scenarios {
  import opened Wrappers
  import opened Types
  import Hex
  import Decimal
  import Js
  import HexCodec
  import Formatter
  import Shader

  /** parseInt skips leading white space. */
  lemma ParseSkipsSpace()
    ensures Js.ParseInt16(" f") == Num(15.0)
  {
    var s := " f";
    assert Js.IsWhiteSpace(s[0]);
    assert s[1..] == "f";
    Js.TrimStartOfHex("f");
    assert Js.TrimStart(s) == "f";
    assert Js.SkipSign("f") == "f";
    assert Js.SkipRadixPrefix("f") == "f";
    Js.HexPrefixOfHex("f");
    assert Hex.Value("f") == 15;
  }

  /** parseInt takes a leading minus sign. */
  lemma ParseTakesSign()
    ensures Js.ParseInt16("-f") == Num(-15.0)
  {
    var s := "-f";
    assert !Js.IsWhiteSpace(s[0]) && !Js.IsLineTerminator(s[0]);
    assert Js.TrimStart(s) == s;
    assert Js.SkipSign(s) == "f";
    assert Js.SkipRadixPrefix("f") == "f";
    Js.HexPrefixOfHex("f");
    assert Hex.Value("f") == 15;
  }

  /** parseInt stops at the first character that is not a hex digit. */
  lemma ParseStopsAtNonDigit()
    ensures Js.ParseInt16("1z") == Num(1.0)
  {
    var s := "1z";
    Js.TrimStartOfHex(s);
    assert Js.SkipSign(s) == s;
    assert Js.SkipRadixPrefix(s) == s;
    assert Js.HexPrefix(s[1..]) == [];
    assert Js.HexPrefix(s) == "1";
    assert Hex.Value("1") == 1;
  }

  /** A run that is only the radix prefix "0x" has no digits left: NaN. */
  lemma ParseRadixPrefixAlone()
    ensures Js.ParseInt16("0x") == NaN
  {
    var s := "0x";
    Js.TrimStartOfHex(s);
    assert Js.SkipSign(s) == s;
    assert Js.SkipRadixPrefix(s) == [];
  }

  /** A run with no hex digit at its front is NaN. */
  lemma ParseNoDigits()
    ensures Js.ParseInt16("zz") == NaN
    ensures Js.ParseInt16("#a") == NaN
  {
    NoDigitsFirst("zz");
    NoDigitsFirst("#a");
  }

  lemma NoDigitsFirst(s: string)
    requires |s| == 2
    requires !Hex.IsHexDigit(s[0]) && !Js.IsWhiteSpace(s[0]) && !Js.IsLineTerminator(s[0])
    requires s[0] != '-' && s[0] != '+'
    ensures Js.ParseInt16(s) == NaN
  {
    assert Js.TrimStart(s) == s;
    assert Js.SkipSign(s) == s;
    assert Js.SkipRadixPrefix(s) == s;
    assert Js.HexPrefix(s) == [];
  }

  /** With or without '#', "1a2b3c" is red 26, green 43, blue 60. */
  lemma DecodeExample()
    ensures HexCodec.RgbFromHex("1a2b3c") == Formatter.IntChannels(26, 43, 60)
    ensures HexCodec.RgbFromHex("#1a2b3c") == Formatter.IntChannels(26, 43, 60)
  {
    var h := "1a2b3c";
    assert Hex.IsHexString(h) by {
      forall i | 0 <= i < 6
        ensures Hex.IsHexDigit(h[i])
      {
        assert h[i] in h;
      }
    }
    HexCodec.DecodeHexDigits(h);
    assert Hex.PairValue('1', 'a') == 26;
    assert Hex.PairValue('2', 'b') == 43;
    assert Hex.PairValue('3', 'c') == 60;
    HexCodec.FormattedDecodesAlike(h);
  }

  /** The three-digit shorthand is refused, with or without '#'. */
  lemma ShorthandRefused()
    ensures HexCodec.DecodeHex("abc") == Failure(HexCodec.WrongLength)
    ensures HexCodec.RgbFromHex("abc") == Black
    ensures HexCodec.RgbFromHex("#abc") == Black
  {
  }

  /**
   * Digits are never validated: six characters that are not hex digits
   * decode to three NaN channels, not to the all-zero fallback.
   */
  lemma NonHexIsNotBlack()
    ensures HexCodec.RgbFromHex("zzzzzz") == Rgb(NaN, NaN, NaN)
    ensures HexCodec.RgbFromHex("zzzzzz") != Black
  {
    var h := "zzzzzz";
    assert h[..2] == "zz" && h[2..4] == "zz" && h[4..] == "zz";
    Js.DotPairsOfSix(h);
    ParseNoDigits();
  }

  /** A '#' is dropped only from seven characters; in six it is read as part of a run. */
  lemma HashInSixIsRead()
    ensures HexCodec.RgbFromHex("#abcde").red == NaN
  {
    var h := "#abcde";
    forall i | 0 <= i < 6
      ensures !Js.IsLineTerminator(h[i])
    {
      assert h[i] in h;
    }
    Js.DotPairsOfSix(h);
    assert h[..2] == "#a";
    ParseNoDigits();
  }

  /** A seven-character input loses its first character, even when it is not '#'. */
  lemma AnyFirstOfSevenDropped()
    ensures HexCodec.RgbFromHex("x1a2b3c") == Formatter.IntChannels(26, 43, 60)
  {
    assert "x1a2b3c"[1..] == "1a2b3c";
    HexCodec.SevenDropsFirst("x1a2b3c");
    DecodeExample();
  }

  /** A line break is skipped by the split, so the runs need not be pairs. */
  lemma LineBreakShiftsRuns()
    ensures Js.DotPairs("a\nbcde") == ["a", "bc", "de"]
    ensures HexCodec.RgbFromHex("a\nbcde") == Formatter.IntChannels(10, 188, 222)
  {
    LineBreakSplit();
    Js.ParseInt16OfHex("a");
    assert Hex.Value("a") == 10;
    ParsePairExample("bc", 188);
    ParsePairExample("de", 222);
  }

  lemma LineBreakSplit()
    ensures Js.DotPairs("a\nbcde") == ["a", "bc", "de"]
  {
    var s := "a\nbcde";
    assert s[1..] == "\nbcde" && s[..1] == "a";
    LineBreakTail();
  }

  lemma LineBreakTail()
    ensures Js.DotPairs("\nbcde") == ["bc", "de"]
  {
    assert "\nbcde"[1..] == "bcde";
    PairsOfFour();
  }

  lemma PairsOfFour()
    ensures Js.DotPairs("bcde") == ["bc", "de"]
  {
    assert "bcde"[2..] == "de" && "bcde"[..2] == "bc";
    assert "de"[2..] == [] && "de"[..2] == "de";
    assert Js.DotPairs("de") == ["de"];
  }

  lemma ParsePairExample(run: string, v: nat)
    requires |run| == 2 && Hex.IsHexDigit(run[0]) && Hex.IsHexDigit(run[1])
    requires Hex.PairValue(run[0], run[1]) == v
    ensures Js.ParseInt16(run) == Num(v as real)
  {
    HexCodec.ParsePair(run);
  }

  /** The time record ("14", "05", "09") is shown as "#140509". */
  lemma ClockCode()
    ensures HexCodec.HexFormatted(HexCodec.HexFromTime(Time("14", "05", "09"))) == "#140509"
  {
  }

  /** "140509" has channels 20, 5 and 9: the time's digits read as base 16. */
  lemma ClockChannels()
    ensures HexCodec.RgbFromHex("140509") == Formatter.IntChannels(20, 5, 9)
  {
    var h := "140509";
    assert Hex.IsHexString(h) by {
      forall i | 0 <= i < 6
        ensures Hex.IsHexDigit(h[i])
      {
        assert h[i] in h;
      }
    }
    HexCodec.DecodeHexDigits(h);
    assert Hex.PairValue('1', '4') == 20;
    assert Hex.PairValue('0', '5') == 5;
    assert Hex.PairValue('0', '9') == 9;
  }

  /** That colour is shown as "rgb( 20, 5, 9 )". */
  lemma ClockText(other: real -> string)
    ensures Formatter.RgbFormatted(Formatter.IntChannels(20, 5, 9), other) == "rgb( 20, 5, 9 )"
  {
    ClockNumerals();
    assert (20.0).Floor == 20 && (5.0).Floor == 5 && (9.0).Floor == 9;
    Formatter.FormattedTextFixed(Formatter.IntChannels(20, 5, 9), other);
    ClockLayout(Decimal.IntToString(20), Decimal.IntToString(5), Decimal.IntToString(9));
  }

  lemma ClockNumerals()
    ensures Decimal.IntToString(20) == "20" && Decimal.IntToString(5) == "5" && Decimal.IntToString(9) == "9"
  {
  }

  lemma ClockLayout(tr: string, tg: string, tb: string)
    requires tr == "20" && tg == "5" && tb == "9"
    ensures "rgb( " + (tr + (", " + (tg + (", " + (tb + " )"))))) == "rgb( 20, 5, 9 )"
  {
  }

  /** The colour with channels 20, 5 and 9, 80% lighter, keeps the unrounded 16.2 for blue. */
  lemma ClockAccent(other: real -> string)
    ensures Shader.RgbShaded(Formatter.IntChannels(20, 5, 9), 80.0, other)
            == "rgb( 36, 9, " + other(16.2) + " )"
  {
    var accent := Rgb(Num(36.0), Num(9.0), Num(16.2));
    AccentShade();
    AccentText(other);
    assert Shader.RgbShaded(Formatter.IntChannels(20, 5, 9), 80.0, other) == Formatter.RgbFormatted(accent, other);
  }

  lemma AccentShade()
    ensures Shader.ShadeRgb(Formatter.IntChannels(20, 5, 9), 80.0) == Rgb(Num(36.0), Num(9.0), Num(16.2))
  {
    assert Shader.Scaled(20.0, 80.0) == 36.0;
    assert Shader.Scaled(5.0, 80.0) == 9.0;
    assert Shader.Scaled(9.0, 80.0) == 16.2;
  }

  lemma AccentText(other: real -> string)
    ensures Formatter.RgbFormatted(Rgb(Num(36.0), Num(9.0), Num(16.2)), other) == "rgb( 36, 9, " + other(16.2) + " )"
  {
    assert (36.0).Floor == 36 && (9.0).Floor == 9 && (16.2).Floor == 16;
    AccentNumerals();
    AccentLayout(Decimal.IntToString(36), Decimal.IntToString(9), other(16.2));
  }

  lemma AccentNumerals()
    ensures Decimal.IntToString(36) == "36" && Decimal.IntToString(9) == "9"
  {
  }

  lemma AccentLayout(tr: string, tg: string, tb: string)
    requires tr == "36" && tg == "9"
    ensures "rgb( " + tr + ", " + tg + ", " + tb + " )" == "rgb( 36, 9, " + tb + " )"
  {
  }
}

=== FILE: shader.dfy ===
/**
 * Shading: every channel scaled by (100 + percent) / 100 to lighten
 * (positive percent) or darken (negative percent) a colour, capped at 255
 * from above only, and rendered as an "rgb( R, G, B )" string.
 */
module Shader {
  import opened Types
  import Formatter
  import Decimal
  import opened Wrappers

  /** A channel scaled by a percentage, before any capping. */
  function Scaled(c: real, percent: real): real {
    c * (100.0 + percent) / 100.0
  }

  /**
   * One channel shaded: the scaled value, or exactly 255 when that is
   * larger. NaN stays NaN, since `NaN > 255` is false.
   */
  function ShadeChannel(c: Number, percent: real): (r: Number)
    ensures r.NaN? <==> c.NaN?
    ensures r.Num? ==> r.value <= 255.0
    ensures c.Num? && Scaled(c.value, percent) <= 255.0 ==> r == Num(Scaled(c.value, percent))
    ensures c.Num? && Scaled(c.value, percent) > 255.0 ==> r == Num(255.0)
  {
    match c
    case NaN => NaN
    case Num(v) =>
      var x := Scaled(v, percent);
      Num(if x > 255.0 then 255.0 else x)
  }

  /** A channel that is NaN or a number no larger than 255. */
  predicate AtMost255(n: Number) {
    n.NaN? || n.value <= 255.0
  }

  /**
   * `r` is channel `c` shaded by `percent`: NaN stays NaN, a scaled value of
   * at most 255 is kept, and a larger one becomes 255.
   */
  predicate ShadedFrom(c: Number, percent: real, r: Number) {
    && (c.NaN? ==> r.NaN?)
    && (c.Num? && Scaled(c.value, percent) <= 255.0 ==> r == Num(Scaled(c.value, percent)))
    && (c.Num? && Scaled(c.value, percent) > 255.0 ==> r == Num(255.0))
  }

  /** Each channel shaded on its own: none ends above 255, and 0% changes none at most 255. */
  function ShadeRgb(rgb: Rgb, percent: real): (r: Rgb)
    ensures ShadedFrom(rgb.red, percent, r.red)
    ensures ShadedFrom(rgb.green, percent, r.green)
    ensures ShadedFrom(rgb.blue, percent, r.blue)
    ensures AtMost255(r.red) && AtMost255(r.green) && AtMost255(r.blue)
    ensures r.red.NaN? == rgb.red.NaN? && r.green.NaN? == rgb.green.NaN? && r.blue.NaN? == rgb.blue.NaN?
    ensures percent == 0.0 && AtMost255(rgb.red) && AtMost255(rgb.green) && AtMost255(rgb.blue) ==> r == rgb
  {
    Rgb(ShadeChannel(rgb.red, percent), ShadeChannel(rgb.green, percent), ShadeChannel(rgb.blue, percent))
  }

  /**
   * The shaded colour as a display string; no rounding happens before
   * formatting. Whenever the shaded channels are plain integers the text
   * reads back as those channels, so none is above 255, and at 0% a colour
   * with channels at most 255 reads back unchanged.
   */
  function RgbShaded(rgb: Rgb, percent: real, other: real -> string): (s: string)
    ensures var sh := ShadeRgb(rgb, percent);
            Formatter.IsPlainRgb(sh) ==>
              && Formatter.ParseRgbText(s) == Some((sh.red.value.Floor, sh.green.value.Floor, sh.blue.value.Floor))
              && sh.red.value.Floor <= 255 && sh.green.value.Floor <= 255 && sh.blue.value.Floor <= 255
    ensures percent == 0.0 && Formatter.IsPlainRgb(rgb)
            && AtMost255(rgb.red) && AtMost255(rgb.green) && AtMost255(rgb.blue) ==>
              Formatter.ParseRgbText(s) == Some((rgb.red.value.Floor, rgb.green.value.Floor, rgb.blue.value.Floor))
  {
    Formatter.RgbFormatted(ShadeRgb(rgb, percent), other)
  }

  /** The product of two non-negative reals is non-negative. */
  lemma MulNonNeg(a: real, b: real)
    requires a >= 0.0 && b >= 0.0
    ensures a * b >= 0.0
  {
  }

  /** Shading by 0% changes no channel that is already at most 255. */
  lemma ShadeByZero(rgb: Rgb)
    requires AtMost255(rgb.red) && AtMost255(rgb.green) && AtMost255(rgb.blue)
    ensures ShadeRgb(rgb, 0.0) == rgb
  {
  }

  /** There is no lower clamp: darkening past -100% turns a positive channel negative. */
  lemma NoLowerClamp(c: real, percent: real)
    requires c > 0.0 && percent < -100.0
    ensures ShadeChannel(Num(c), percent).value < 0.0
  {
    assert c * (100.0 + percent) < 0.0;
  }

  /** For a non-negative channel, a larger percentage never gives a darker result. */
  lemma MonotoneInPercent(c: real, p: real, q: real)
    requires c >= 0.0 && p <= q
    ensures ShadeChannel(Num(c), p).value <= ShadeChannel(Num(c), q).value
  {
    assert c * (100.0 + q) - c * (100.0 + p) == c * (q - p);
    MulNonNeg(c, q - p);
  }

  /** Lightening keeps a channel between its old value and 255. */
  lemma LightenBounds(c: real, percent: real)
    requires 0.0 <= c <= 255.0 && percent >= 0.0
    ensures c <= ShadeChannel(Num(c), percent).value <= 255.0
  {
    assert c * (100.0 + percent) == 100.0 * c + c * percent;
    MulNonNeg(c, percent);
  }

  /** Darkening by at most 100% keeps a non-negative channel between 0 and its old value. */
  lemma DarkenBounds(c: real, percent: real)
    requires 0.0 <= c <= 255.0 && -100.0 <= percent <= 0.0
    ensures 0.0 <= ShadeChannel(Num(c), percent).value <= c
  {
    assert c * (100.0 + percent) == 100.0 * c + c * percent;
    MulNonNeg(c, -percent);
    MulNonNeg(c, 100.0 + percent);
  }

  /** A channel's shade depends on that channel alone. */
  lemma ChannelsIndependent(a: Rgb, b: Rgb, percent: real)
    ensures a.red == b.red ==> ShadeRgb(a, percent).red == ShadeRgb(b, percent).red
    ensures a.green == b.green ==> ShadeRgb(a, percent).green == ShadeRgb(b, percent).green
    ensures a.blue == b.blue ==> ShadeRgb(a, percent).blue == ShadeRgb(b, percent).blue
  {
  }

  /** The numerals the examples below display. */
  lemma Numerals()
    ensures Decimal.IntToString(180) == "180" && Decimal.IntToString(255) == "255"
  {
  }

  /** Grey 100 and grey 200 lightened by 80%: 180, and 360 capped to 255. */
  lemma GreyShades()
    ensures ShadeRgb(Formatter.IntChannels(100, 100, 100), 80.0) == Formatter.IntChannels(180, 180, 180)
    ensures ShadeRgb(Formatter.IntChannels(200, 200, 200), 80.0) == Formatter.IntChannels(255, 255, 255)
  {
    assert Scaled(100.0, 80.0) == 180.0;
    assert Scaled(200.0, 80.0) == 360.0;
  }

  /** The display text of a grey whose channels are written `t`. */
  lemma GreyTexts(t: string)
    ensures t == "180" ==> "rgb( " + (t + (", " + (t + (", " + (t + " )"))))) == "rgb( 180, 180, 180 )"
    ensures t == "255" ==> "rgb( " + (t + (", " + (t + (", " + (t + " )"))))) == "rgb( 255, 255, 255 )"
  {
  }

  /** Lightening grey 100 by 80% gives 180 on each channel. */
  lemma ShadeGreyExample(other: real -> string)
    ensures RgbShaded(Formatter.IntChannels(100, 100, 100), 80.0, other) == "rgb( 180, 180, 180 )"
  {
    Numerals();
    GreyShades();
    var shaded := Formatter.IntChannels(180, 180, 180);
    assert (180.0).Floor == 180;
    Formatter.FormattedTextFixed(shaded, other);
    GreyTexts(Decimal.IntToString(180));
  }

  /** Lightening grey 200 by 80% gives 360, capped to 255 on each channel. */
  lemma ShadeCappedExample(other: real -> string)
    ensures RgbShaded(Formatter.IntChannels(200, 200, 200), 80.0, other) == "rgb( 255, 255, 255 )"
  {
    Numerals();
    GreyShades();
    var shaded := Formatter.IntChannels(255, 255, 255);
    assert (255.0).Floor == 255;
    Formatter.FormattedTextFixed(shaded, other);
    GreyTexts(Decimal.IntToString(255));
  }
}

=== FILE: types.dfy ===
/**
 * The value records the colour helpers pass around: a time of day split into
 * three text fields, and a colour as three numeric channels.
 */
module Types {

  /**
   * A JavaScript `number` as these helpers can produce it: NaN (what
   * `parseInt` yields for text with no digits), or a finite value, held as an
   * exact real. Negative zero is not told apart from zero.
   */
  datatype Number = NaN | Num(value: real)

  /** A colour as red, green and blue channels (`IRGB`). */
  datatype Rgb = Rgb(red: Number, green: Number, blue: Number)

  /** A time of day as three text fields (`ITime`). */
  datatype Time = Time(hours: string, mins: string, secs: string)

  /** The all-zero colour the decoder falls back to when it rejects its input. */
  const Black: Rgb := Rgb(Num(0.0), Num(0.0), Num(0.0))
}

=== FILE: wrappers.dfy ===
/** The optional and fallible results of the decoder and the text parsers. */
module Wrappers {

  /** Some value, or nothing; usable with `:-`. */
  datatype Option<+T> = None | Some(value: T) {

    predicate IsFailure() {
      None?
    }

    function PropagateFailure<U>(): Option<U>
      requires None?
    {
      None
    }

    function Extract(): T
      requires Some?
    {
      value
    }
  }

  /** A success value, or an error value. */
  datatype Result<+R, +E> = Success(value: R) | Failure(error: E) {

    /** The success value, or `default` on failure. */
    function GetOr(default: R): R {
      match this
      case Success(v) => v
      case Failure(_) => default
    }
  }
}
